=== FILE: README.md ===
# Content binder of the restaurant site, modelled in Dafny

The site's page ships with static placeholder content. A loader script
fetches five JSON content documents: about, gallery, menu, footer and
Instagram. It then runs five binders in a fixed order. Each binder writes
markup for its document into a few placeholder regions of the page. Any
document may be missing (`null` after a failed fetch) or partially filled.
The binders handle this by doing nothing: a missing document, a missing
region or a missing field leaves the static content of the region it feeds
visible. The contact block is the exception: it is rewritten when any of
address, phone or email is present, and the missing parts are left out.
Inside list entries, the fields the script concatenates unconditionally (a
stat's number and label, an hours entry's days and time, a link's platform,
a category's id and name, an item's name and price, a group's heading)
print as `undefined` when missing. The fields it tests first (a photo's
image and alt, a link's url, a category's items and option groups, an
item's description, a group's options) are skipped or defaulted.

This project models that binding logic as pure functions:

- **The page** (`Dom`) is a map from region (one `RegionId` per `cms-*`
  element id) to an element. An element holds text (`textContent`), markup
  (`innerHTML`) or a list of child elements, plus an image `src`. A region
  missing from the map is an element the page does not have. `Other`
  regions stand for the rest of the page, which no binder looks up.
- **The documents** are immutable datatypes. Every optional JSON field is an
  `Option`.
- **The binders** `BindAbout`, `BindGallery`, `BindMenu`, `BindFooter` and
  `BindInstagram` each map `(Option<Document>, Page)` to `Page`.
  `Loader.BindAll` runs them in the order the script does.

JavaScript's two ways of testing a field are kept apart:

- `value != null` (used by `setText`) is `Some?`, so an empty string is
  still written.
- Truthiness (used by the title, photo, contact, handle and image tests) is
  `Optional.Truthy`: present and non-empty.
- String concatenation of an absent field prints `undefined`, as `Show`
  does.

Markup is plain string concatenation. The script escapes nothing, and
neither does the model.

Structured markup is kept structured where the script's promises concern
it:

- links are an `Anchor` (href, opens-externally flag, label);
- menu tabs are a `Tab` (active flag, target id, label);
- menu panels are `Div` children with a class set, an id and a hidden flag.

Three of the script's operations are one filter. The photo filter, the
phone dial-target regex and the removal of old `.menu-content` panels are
all instances of `Seqs.Filter`, so their order and count properties are
proved once.

Two details of the script shape the model:

- The dial target is built with `replace(/[^+\d]/g, "")`, which keeps
  every `+`, wherever it stands, so `DialTarget` does too.
- The title, photo, contact parts, Instagram handle and profile url are
  tested for truthiness, so an empty string is skipped for these. The
  label, paragraphs, tagline and motto go through `setText`, which writes
  an empty string.

## Model

| member | source | states |
|---|---|---|
| Dom.SetText | js/cms-loader.js:17-19 | A missing element or an absent value leaves the page unchanged. Any present value, the empty string included, becomes that region's text. No other region changes. |
| Dom.SetHTML | js/cms-loader.js:22-24 | The same rule as `setText`, for markup. |
| Dom.DomIdInjective | js/cms-loader.js:30-35 | Distinct binder regions are looked up by distinct element ids, so keying the page by region loses nothing against lookup by id. |
| Seqs.Filter | js/cms-loader.js:75-80 | Every element the filter returns passes the test (a usable photo, a dial character, a non-panel child). The result is never longer than the input. |
| Seqs.FilterCounts | js/cms-loader.js:75-80 | Every element that passes the test occurs in the result exactly as often as in the input. An element that fails the test never occurs. |
| Seqs.FilterAppend | js/cms-loader.js:75-80 | Filtering distributes over concatenation, so kept elements stay in document order and the skipped ones do not shift the others. |
| Seqs.FilterEmptyIff | js/cms-loader.js:70-73 | The filter returns nothing exactly when no element passes the test (both directions). |
| Seqs.FilterKeepsAll | js/cms-loader.js:184 | A sequence whose elements all pass the test is returned unchanged. |
| Seqs.FilterIdempotent | js/cms-loader.js:107-110 | Filtering twice gives the same result as filtering once. |
| Markup.JoinAppend | js/cms-loader.js:46-53 | Rendering a list item by item (`html += …`) distributes over concatenation of the list. |
| Photos.HasImagesIff | js/cms-loader.js:70-73 | The `some(p => p.image && p.image.length > 0)` guard holds exactly when the filtered photo list is non-empty. |
| Photos.RenderKeptIsJoinOfKept | js/cms-loader.js:76-80 | The `forEach` with its inner `if (photo.image)` renders exactly one tag per usable photo, in document order, and nothing for the others. |
| About.BreakLines | js/cms-loader.js:39 | The title markup contains no `'\n'`. Its length grows by 3 per line break. Text without line breaks is unchanged, and a lone line break becomes `<br>`. |
| About.BreakLinesOneChar | js/cms-loader.js:39 | A single character maps to `<br>` when it is a line break and to itself otherwise; with `BreakLinesAppend` this fixes the markup of every title. |
| About.BreakLinesAppend | js/cms-loader.js:39 | The replacement works character by character: it distributes over concatenation. |
| About.BindAbout | js/cms-loader.js:27-60 | An absent document changes nothing. Only the six about regions can change. A present label or paragraph is written, even when empty. The title is written only when truthy, as `BreakLines` markup. The stats are replaced only for a non-empty list, one block per stat. The photo `src` is set only when truthy. Each absent field leaves its region untouched. |
| About.BindAboutUsesSetText | js/cms-loader.js:37-42 | The label and both paragraphs end up exactly as `setText` leaves them. |
| About.BindAboutIdempotent | js/cms-loader.js:27-60 | Binding the same about document twice gives the same page as binding it once. |
| About.OnlyParagraphScenario | js/cms-loader.js:41 | A document with only `paragraph1: "Hello"` writes that paragraph and leaves every other region as it was. |
| About.BindAboutLocal | js/cms-loader.js:30-35 | The about regions after binding depend only on what those regions held before. |
| Gallery.BindGallery | js/cms-loader.js:63-82 | Only the strip can change. If no photo has a non-empty image (document absent, list absent, empty or all unusable), the page is unchanged. Otherwise the strip becomes one `<img>` per usable photo, in document order, with alt defaulting to `""`. |
| Gallery.BindGalleryIdempotent | js/cms-loader.js:63-82 | Binding the same gallery twice gives the same page as binding it once. |
| Gallery.BindGalleryLocal | js/cms-loader.js:66 | The strip after binding depends only on what it held before. |
| Dial.DialTarget | js/cms-loader.js:184 | The dial target contains only digits and `+`, and is never longer than the phone string. |
| Dial.DialTargetCounts | js/cms-loader.js:184 | Every digit and every `+` of the phone survives as many times as it was written. No other character survives. |
| Dial.DialTargetAppend | js/cms-loader.js:184 | Normalising a concatenation gives the concatenation of the normalised parts, so the dial characters keep their order. |
| Dial.DialTargetOfDialString | js/cms-loader.js:184 | A string of digits and `+` is its own dial target. |
| Dial.DialTargetOfPunctuation | js/cms-loader.js:184 | A string with no digit and no `+` has an empty dial target. |
| Dial.DialTargetIdempotent | js/cms-loader.js:184 | Normalising twice gives the same result as normalising once. |
| Dial.DialTargetOfGroupStep | js/cms-loader.js:184 | A number group followed by punctuation and a remainder normalises to the group followed by the remainder's dial target. |
| Dial.DialTargetOfGroups | js/cms-loader.js:184 | Number groups separated by punctuation normalise to the groups concatenated. |
| Dial.DialTargetOfExamplePieces | js/cms-loader.js:184 | The pieces of `"+1 (555) 123-4567"` normalise to `"+15551234567"`. |
| Dial.DialTargetExample | js/cms-loader.js:184 | `"+1 (555) 123-4567"` has the dial target `"+15551234567"`. |
| Footer.SocialAnchor | js/cms-loader.js:193-197 | A link opens externally (`target="_blank" rel="noopener"`) exactly when its url is present, non-empty and not `"#"`, and then it points at that url. Any other link is an inert `href="#"` anchor. The platform is always the label. |
| Footer.PhoneAnchor | js/cms-loader.js:183-184 | The phone link is not external and is labelled with the phone string exactly as written. Its target is `tel:` followed by the phone's dial target, so only by digits and `+`. |
| Footer.PhoneAnchorDials | js/cms-loader.js:183-184 | The link's target is `tel:` followed by the phone's dial target: every digit and `+` of the phone, as often as written, in the order written, and nothing else. |
| Footer.BindFooter | js/cms-loader.js:160-201 | An absent document changes nothing, and only the five footer regions can change. A present tagline or motto is written, even when empty. Hours, when non-empty, become one `{days}: {time}` line per entry. The contact block is written exactly when address, phone or email is truthy, each part on its own condition. Socials, when non-empty, become one anchor per link, in order. Each missing part leaves its region untouched. |
| Footer.BindFooterUsesSetText | js/cms-loader.js:169-170 | The tagline and the motto end up exactly as `setText` leaves them. |
| Footer.BindFooterIdempotent | js/cms-loader.js:160-201 | Binding the same footer twice gives the same page as binding it once. |
| Footer.PhoneAnchorOfExampleTarget | js/cms-loader.js:184 | A phone whose dial target is `"+15551234567"` links to `tel:+15551234567` and keeps its own text as the label. |
| Footer.PhoneAnchorExample | js/cms-loader.js:184 | `"+1 (555) 123-4567"` links to `tel:+15551234567` and is displayed unmodified. |
| Footer.BindFooterLocal | js/cms-loader.js:163-167 | The footer regions after binding depend only on what those regions held before. |
| Instagram.BindInstagram | js/cms-loader.js:204-243 | An absent document changes nothing, and only the handle and the grid can change. The follow line is written exactly when both the handle and the profile url are truthy. The grid follows the gallery's rule: unchanged when no photo is usable, otherwise one post per usable photo, in order, with alt defaulting to `"Instagram post"`. |
| Instagram.BindInstagramIdempotent | js/cms-loader.js:204-243 | Binding the same Instagram document twice gives the same page as binding it once. |
| Instagram.BindInstagramLocal | js/cms-loader.js:207-208 | The handle and grid after binding depend only on what they held before. |
| Menu.BindMenu | js/cms-loader.js:85-157 | Nothing changes without a category or without both the tab strip and the container. Otherwise the strip is rewritten and the container's children become its non-panel children followed by the new panels. Only those two regions can change. |
| Menu.TabsOneActive | js/cms-loader.js:94-103 | For n ≥ 1 categories there are n tabs and exactly one is active: the tab at index 0. Tab i targets category i's id and shows its name. |
| Menu.PanelsOneVisible | js/cms-loader.js:113-117 | For n ≥ 1 categories there are n panels, all carrying the `menu-content` class. Panel i has category i's id, and exactly one panel is visible: the one at index 0. |
| Menu.BindMenuPanels | js/cms-loader.js:106-156 | After binding, the container's `.menu-content` children are exactly the new panels, in category order. Its other children (header, tabs) are those it had before, in the same order. |
| Menu.RebuildTwice | js/cms-loader.js:106-117 | Rebuilding a container that was just rebuilt from the same categories gives the same children: the panels appended last time are exactly the ones removed. |
| Menu.BindMenuIdempotent | js/cms-loader.js:106-110 | Binding the same menu twice gives the same page as binding it once: old panels are removed before new ones are appended, so none are duplicated. |
| Menu.BindMenuLocal | js/cms-loader.js:88-90 | The tab strip and container after binding depend only on what they held before. |
| Loader.BindAll | js/cms-loader.js:253-259 | With all five documents absent the page is unchanged. No element outside the five binders' regions ever changes. |
| Loader.BindAllIndependent | js/cms-loader.js:254-258 | When every binder runs to completion, each binder's regions end up exactly as that binder alone would leave them: the binders share no state. |
| Loader.BindAllIdempotent | js/cms-loader.js:253-259 | Running the whole binding a second time with the same documents leaves the page as the first run left it. |

## Left out

- `loadJSON`, `fetch`, `Promise.all` and the `DOMContentLoaded` wiring
  (js/cms-loader.js:5-14, 246-252) are network I/O and asynchronous fan-out.
  Each document is given directly as an `Option`: `None` stands for any
  failed fetch, error status or bad body. `Loader.BindAll` models only the
  callback that runs after all five settle.
- DOM APIs are abstracted as a region map. Markup strings are never parsed.
  The `.menu-content` removal looks only at the container's direct `Div`
  children, while `querySelectorAll` would also find panels nested deeper or
  written inside a markup string. The tab strip is a region of its own,
  though in the page it may sit inside the menu container. More generally,
  regions are modelled as disjoint: no region is assumed to sit inside
  another region that a binder rewrites through `innerHTML` or
  `textContent`, and `Loader.BindAllIndependent` relies on this.
- A hidden panel (`style.display = "none"`) is a `hidden` flag on the child.
  Other style and attribute state is not modelled. An element has only its
  content and its `src`.
- `switchTab` is defined outside this script. Only its name and argument in
  the generated markup are modelled.
- The SVG icon of Instagram posts is an opaque constant string.
- JSON values are modelled as optional strings and optional lists only.
  Numbers (a numeric price or stat) are represented by their string form.
  A JSON `null` field is treated as absent: `!= null` and truthiness agree
  on it, but the script would print it as `null`, not `undefined`.
  Ill-shaped documents are not modelled. On some of them the script
  throws (a non-empty string as `photos`, a `null` photo entry); on others,
  such as a numeric `photos`, whose `length` is undefined, the binder does
  nothing.
- Loader.BindAllIndependent: holds only for documents on which no binder
  throws. In the script the five calls are plain statements of one
  callback, so a binder that throws (a numeric `phone` or `sectionTitle`,
  a `null` photo or category) skips every binder after it.
- Option strings inside a menu option group are plain strings, not
  optional ones.

=== FILE: about.dfy ===
/** `loadAbout`: label, title, two paragraphs, the stats strip and the photo. */
module About {
  import opened Optional
  import opened Markup
  import opened Dom

  /** One stat; `caption` holds the JSON field `label` (a reserved word here). */
  datatype Stat = Stat(number: Option<string>, caption: Option<string>)

  datatype AboutDoc = AboutDoc(
    sectionLabel: Option<string>,
    sectionTitle: Option<string>,
    paragraph1: Option<string>,
    paragraph2: Option<string>,
    stats: Option<seq<Stat>>,
    photo: Option<string>)

  const Footprint: set<RegionId> := {AboutLabel, AboutTitle, AboutP1, AboutP2, AboutStats, AboutPhoto}

  /** Every line break of the title becomes a `<br>` tag. */
  function BreakLines(s: string): (r: string)
    ensures forall i :: 0 <= i < |r| ==> r[i] != '\n'
    ensures |r| == |s| + 3 * multiset(s)['\n']
    ensures (forall i :: 0 <= i < |s| ==> s[i] != '\n') ==> r == s
    ensures |s| == 1 ==> r == (if s[0] == '\n' then "<br>" else s)
  {
    if |s| == 0 then ""
    else
      assert s == [s[0]] + s[1..];
      (if s[0] == '\n' then "<br>" else [s[0]]) + BreakLines(s[1..])
  }

  /** The replacement works character by character: it distributes over
      concatenation, so text around a break is kept in place. */
  lemma {:induction false} BreakLinesAppend(a: string, b: string)
    ensures BreakLines(a + b) == BreakLines(a) + BreakLines(b)
  {
    if |a| == 0 {
      assert a + b == b;
    } else {
      assert (a + b)[0] == a[0];
      assert (a + b)[1..] == a[1..] + b;
      BreakLinesAppend(a[1..], b);
    }
  }

  /** A single character: a line break becomes `<br>`, anything else is
      kept. With `BreakLinesAppend` this fixes the result for every title. */
  lemma BreakLinesOneChar(c: char)
    ensures BreakLines([c]) == if c == '\n' then "<br>" else [c]
  {
  }

  function StatBlock(st: Stat): string {
    "<div><div class=\"about-stat-number\">" + Show(st.number)
      + "</div><div class=\"about-stat-label\">" + Show(st.caption) + "</div></div>"
  }

  /** Each field is written only when the document has it; the title and
      the photo need a non-empty value, the label and paragraphs only a
      present one, the stats a non-empty list. */
  function BindAbout(doc: Option<AboutDoc>, p: Page): (r: Page)
    ensures Frame(p, r, Footprint)
    ensures doc.None? ==> r == p
    ensures doc.Some? && doc.value.sectionLabel.Some? ==>
      Wrote(p, r, AboutLabel, Text(doc.value.sectionLabel.value))
    ensures doc.Some? && doc.value.sectionLabel.None? ==> Untouched(p, r, AboutLabel)
    ensures doc.Some? && Truthy(doc.value.sectionTitle) ==>
      Wrote(p, r, AboutTitle, Markup(BreakLines(doc.value.sectionTitle.value)))
    ensures doc.Some? && !Truthy(doc.value.sectionTitle) ==> Untouched(p, r, AboutTitle)
    ensures doc.Some? && doc.value.paragraph1.Some? ==>
      Wrote(p, r, AboutP1, Text(doc.value.paragraph1.value))
    ensures doc.Some? && doc.value.paragraph1.None? ==> Untouched(p, r, AboutP1)
    ensures doc.Some? && doc.value.paragraph2.Some? ==>
      Wrote(p, r, AboutP2, Text(doc.value.paragraph2.value))
    ensures doc.Some? && doc.value.paragraph2.None? ==> Untouched(p, r, AboutP2)
    ensures doc.Some? && NonEmpty(doc.value.stats) ==>
      Wrote(p, r, AboutStats, Markup(Join(doc.value.stats.value, StatBlock)))
    ensures doc.Some? && !NonEmpty(doc.value.stats) ==> Untouched(p, r, AboutStats)
    ensures doc.Some? && Truthy(doc.value.photo) && AboutPhoto in p ==>
      r[AboutPhoto] == p[AboutPhoto].(src := doc.value.photo.value)
    ensures doc.Some? && !Truthy(doc.value.photo) ==> Untouched(p, r, AboutPhoto)
  {
    match doc
    case None => p
    case Some(d) => map k | k in p :: Rebind(d, k, p[k])
  }

  /** The element in region `id` after binding `d`, given the one before:
      the statements of `loadAbout`, each touching its own element. */
  function Rebind(d: AboutDoc, id: RegionId, e: Element): Element {
    match id
    case AboutLabel => WithText(e, d.sectionLabel)
    case AboutTitle => if Truthy(d.sectionTitle) then e.(content := Markup(BreakLines(d.sectionTitle.value))) else e
    case AboutP1 => WithText(e, d.paragraph1)
    case AboutP2 => WithText(e, d.paragraph2)
    case AboutStats => if NonEmpty(d.stats) then e.(content := Markup(Join(d.stats.value, StatBlock))) else e
    case AboutPhoto => if Truthy(d.photo) then e.(src := d.photo.value) else e
    case _ => e
  }

  /** The label and the two paragraphs are written exactly as `setText`
      writes them. */
  lemma BindAboutUsesSetText(d: AboutDoc, p: Page)
    ensures Agree(BindAbout(Some(d), p), SetText(p, AboutLabel, d.sectionLabel), {AboutLabel})
    ensures Agree(BindAbout(Some(d), p), SetText(p, AboutP1, d.paragraph1), {AboutP1})
    ensures Agree(BindAbout(Some(d), p), SetText(p, AboutP2, d.paragraph2), {AboutP2})
  {
  }

  /** Binding the same document again changes nothing more. */
  lemma BindAboutIdempotent(doc: Option<AboutDoc>, p: Page)
    ensures BindAbout(doc, BindAbout(doc, p)) == BindAbout(doc, p)
  {
  }

  /** A document holding only `paragraph1: "Hello"` changes that paragraph
      and leaves every other region of the page as it was. */
  lemma OnlyParagraphScenario(p: Page)
    requires AboutP1 in p
    ensures var r := BindAbout(Some(AboutDoc(None, None, Some("Hello"), None, None, None)), p);
      && r[AboutP1].content == Text("Hello")
      && forall k :: k in p && k != AboutP1 ==> r[k] == p[k]
  {
  }

  /** What binding leaves in this binder's regions depends only on what
      those regions held before (and on which regions the page has). */
  lemma BindAboutLocal(doc: Option<AboutDoc>, p: Page, q: Page)
    requires Agree(p, q, Footprint)
    ensures Agree(BindAbout(doc, p), BindAbout(doc, q), Footprint)
  {
  }
}

=== FILE: dial.dfy ===
/** The dial target of a `tel:` link: the phone string with every character
    outside the class `[+\d]` removed. */
module Dial {
  import opened Seqs

  /** A character the pattern `[+\d]` matches (`\d` is ASCII `0`-`9`). */
  predicate IsDialChar(c: char) {
    c == '+' || '0' <= c <= '9'
  }

  /** Drops every character that is neither a digit nor `+`; every `+` is
      kept, wherever it stands. */
  function DialTarget(phone: string): (r: string)
    ensures forall i :: 0 <= i < |r| ==> IsDialChar(r[i])
    ensures |r| <= |phone|
  {
    Filter(phone, IsDialChar)
  }

  /** Every digit and every `+` of the phone string survives, as many times
      as it was written; nothing else does. */
  lemma DialTargetCounts(phone: string)
    ensures forall c :: IsDialChar(c) ==> multiset(DialTarget(phone))[c] == multiset(phone)[c]
    ensures forall c :: !IsDialChar(c) ==> c !in DialTarget(phone)
  {
    FilterCounts(phone, IsDialChar);
  }

  /** The target keeps the dial characters in the order they were written:
      normalising a concatenation is concatenating the normalised parts. */
  lemma DialTargetAppend(a: string, b: string)
    ensures DialTarget(a + b) == DialTarget(a) + DialTarget(b)
  {
    FilterAppend(a, b, IsDialChar);
  }

  /** A string made only of digits and `+` is its own dial target. */
  lemma DialTargetOfDialString(s: string)
    requires forall i :: 0 <= i < |s| ==> IsDialChar(s[i])
    ensures DialTarget(s) == s
  {
    FilterKeepsAll(s, IsDialChar);
  }

  /** Normalising twice is normalising once. */
  lemma DialTargetIdempotent(phone: string)
    ensures DialTarget(DialTarget(phone)) == DialTarget(phone)
  {
    DialTargetOfDialString(DialTarget(phone));
  }

  /** A string with no digit and no `+` has an empty dial target. */
  lemma DialTargetOfPunctuation(s: string)
    requires forall i :: 0 <= i < |s| ==> !IsDialChar(s[i])
    ensures DialTarget(s) == ""
  {
    FilterEmptyIff(s, IsDialChar);
  }

  /** A number group followed by punctuation and the rest: the group is
      kept, the punctuation dropped. */
  lemma DialTargetOfGroupStep(g: string, q: string, rest: string)
    requires DialTarget(g) == g && DialTarget(q) == ""
    ensures DialTarget(g + (q + rest)) == g + DialTarget(rest)
  {
    DialTargetAppend(q, rest);
    assert DialTarget(q + rest) == DialTarget(rest);
    DialTargetAppend(g, q + rest);
  }

  /** Dial targets of seven consecutive pieces, alternating between
      number groups and punctuation. */
  lemma DialTargetOfGroups(g1: string, q1: string, g2: string, q2: string, g3: string, q3: string, g4: string)
    requires DialTarget(q1) == DialTarget(q2) == DialTarget(q3) == ""
    requires DialTarget(g1) == g1 && DialTarget(g2) == g2 && DialTarget(g3) == g3 && DialTarget(g4) == g4
    ensures DialTarget(g1 + (q1 + (g2 + (q2 + (g3 + (q3 + g4)))))) == g1 + (g2 + (g3 + g4))
  {
    DialTargetOfGroupStep(g3, q3, g4);
    DialTargetOfGroupStep(g2, q2, g3 + (q3 + g4));
    DialTargetOfGroupStep(g1, q1, g2 + (q2 + (g3 + (q3 + g4))));
  }

  /** The example number, split into its number groups and punctuation. */
  lemma DialTargetOfExamplePieces()
    ensures DialTarget("+1" + (" (" + ("555" + (") " + ("123" + ("-" + "4567")))))) == "+1" + ("555" + ("123" + "4567"))
  {
    DialTargetOfDialString("+1");
    DialTargetOfPunctuation(" (");
    DialTargetOfDialString("555");
    DialTargetOfPunctuation(") ");
    DialTargetOfDialString("123");
    DialTargetOfPunctuation("-");
    DialTargetOfDialString("4567");
    DialTargetOfGroups("+1", " (", "555", ") ", "123", "-", "4567");
  }

  /** A formatted number loses its spaces, parentheses and dashes. */
  lemma DialTargetExample()
    ensures DialTarget("+1 (555) 123-4567") == "+15551234567"
  {
    // Each `by {}` proves a literal equality on its own, so the long
    // literals do not enter the rest of the proof.
    assert "+1 (555) 123-4567" == "+1" + (" (" + ("555" + (") " + ("123" + ("-" + "4567"))))) by {}
    DialTargetOfExamplePieces();
    assert "+1" + ("555" + ("123" + "4567")) == "+15551234567" by {}
  }
}

=== FILE: dom.dfy ===
/** The host page, abstracted as a map from the placeholder regions the
    binders look up by id to the element found there. A region missing from
    the map is an element the page does not have. */
module Dom {
  import opened Optional

  datatype RegionId =
    | AboutLabel | AboutTitle | AboutP1 | AboutP2 | AboutStats | AboutPhoto
    | GalleryStrip
    | MenuTabs | MenuInner
    | FooterTagline | FooterMotto | FooterHours | FooterContact | FooterSocials
    | InstagramHandle | InstagramGrid
    | Other(name: string)

  /* `Other` stands for any element of the page that no binder looks up:
     the static markup around the placeholders. */

  /** The element id each region is looked up by. */
  function DomId(id: RegionId): string {
    match id
    case AboutLabel => "cms-about-label"
    case AboutTitle => "cms-about-title"
    case AboutP1 => "cms-about-p1"
    case AboutP2 => "cms-about-p2"
    case AboutStats => "cms-about-stats"
    case AboutPhoto => "cms-about-photo"
    case GalleryStrip => "cms-gallery"
    case MenuTabs => "cms-menu-tabs"
    case MenuInner => "cms-menu-inner"
    case FooterTagline => "cms-footer-tagline"
    case FooterMotto => "cms-footer-motto"
    case FooterHours => "cms-footer-hours"
    case FooterContact => "cms-footer-contact"
    case FooterSocials => "cms-footer-socials"
    case InstagramHandle => "cms-instagram-handle"
    case InstagramGrid => "cms-instagram-grid"
    case Other(name) => name
  }

  /** Distinct binder regions are looked up by distinct ids, so a page
      keyed by region is a faithful stand-in for lookup by element id. */
  lemma DomIdInjective(a: RegionId, b: RegionId)
    requires !a.Other? && !b.Other? && a != b
    ensures DomId(a) != DomId(b)
  {
  }

  /** A direct child of a container element. `Div` stands for an element
      child of any tag, since `.menu-content` selects on the class alone;
      only such children carry a class list. Text and markup strings are
      never parsed. */
  datatype Child =
    | Div(classes: set<string>, id: string, hidden: bool, html: string)
    | TextNode(text: string)
    | Fragment(html: string)

  /** What an element holds: text set through `textContent`, markup set
      through `innerHTML`, or a list of child elements. */
  datatype Content = Text(text: string) | Markup(html: string) | Nodes(children: seq<Child>)

  datatype Element = Element(content: Content, src: string)

  type Page = map<RegionId, Element>

  /** The children of an element, reading a text or markup body as one
      opaque child. */
  function Kids(c: Content): seq<Child> {
    match c
    case Text(t) => [TextNode(t)]
    case Markup(h) => [Fragment(h)]
    case Nodes(k) => k
  }

  /** Only the regions in `fp` may differ between `p` and `r`. */
  ghost predicate Frame(p: Page, r: Page, fp: set<RegionId>) {
    && r.Keys == p.Keys
    && forall k :: k in p && k !in fp ==> r[k] == p[k]
  }

  /** Region `id`, if the page has it, is left as it was. */
  ghost predicate Untouched(p: Page, r: Page, id: RegionId) {
    id in p ==> id in r && r[id] == p[id]
  }

  /** Region `id`, if the page has it, now holds `c` and nothing else of it changed. */
  ghost predicate Wrote(p: Page, r: Page, id: RegionId, c: Content) {
    id in p ==> id in r && r[id] == p[id].(content := c)
  }

  /** `el.textContent = text` when the value is not null, the empty string
      included. */
  function WithText(e: Element, text: Option<string>): Element {
    if text.Some? then e.(content := Text(text.value)) else e
  }

  /** `el.innerHTML = html` under the same rule. */
  function WithHTML(e: Element, html: Option<string>): Element {
    if html.Some? then e.(content := Markup(html.value)) else e
  }

  /** `setText(el, text)`: skipped when the element is missing or the value
      is null; otherwise the element's content becomes the text. */
  function SetText(p: Page, id: RegionId, text: Option<string>): (r: Page)
    ensures Frame(p, r, {id})
    ensures text.Some? ==> Wrote(p, r, id, Text(text.value))
    ensures text.None? ==> r == p
  {
    if id in p then p[id := WithText(p[id], text)] else p
  }

  /** `setHTML(el, html)`: the same rule for markup. */
  function SetHTML(p: Page, id: RegionId, html: Option<string>): (r: Page)
    ensures Frame(p, r, {id})
    ensures html.Some? ==> Wrote(p, r, id, Markup(html.value))
    ensures html.None? ==> r == p
  {
    if id in p then p[id := WithHTML(p[id], html)] else p
  }

  /** Pages `p` and `q` have the same regions and hold the same elements
      in the regions `fp`. */
  ghost predicate Agree(p: Page, q: Page, fp: set<RegionId>) {
    && p.Keys == q.Keys
    && forall k :: k in fp && k in p ==> p[k] == q[k]
  }
}

=== FILE: footer.dfy ===
/** `loadFooter`: tagline, motto, opening hours, contact block and social links. */
module Footer {
  import opened Optional
  import opened Markup
  import opened Dom
  import opened Dial

  datatype HoursEntry = HoursEntry(days: Option<string>, time: Option<string>)

  datatype SocialLink = SocialLink(platform: Option<string>, url: Option<string>)

  datatype FooterDoc = FooterDoc(
    tagline: Option<string>,
    motto: Option<string>,
    hours: Option<seq<HoursEntry>>,
    address: Option<string>,
    phone: Option<string>,
    email: Option<string>,
    socialLinks: Option<seq<SocialLink>>)

  const Footprint: set<RegionId> := {FooterTagline, FooterMotto, FooterHours, FooterContact, FooterSocials}

  /** One opening-hours line, `{days}: {time}`, as an inert list link. */
  function HoursLine(h: HoursEntry): string {
    "<li>" + RenderAnchor(Anchor("#", false, Show(h.days) + ": " + Show(h.time))) + "</li>"
  }

  /** A social link is live when its url is present, non-empty and not the
      `#` placeholder. */
  predicate IsLive(link: SocialLink) {
    Truthy(link.url) && link.url.value != "#"
  }

  /** A live link opens its url externally; any other link is an inert
      `#` anchor. The platform name is the label either way. */
  function SocialAnchor(link: SocialLink): (a: Anchor)
    ensures a.external <==> IsLive(link)
    ensures a.external ==> a.href == link.url.value
    ensures !a.external ==> a.href == "#"
    ensures a.text == Show(link.platform)
  {
    if IsLive(link) then Anchor(link.url.value, true, Show(link.platform))
    else Anchor("#", false, Show(link.platform))
  }

  function SocialHtml(link: SocialLink): string {
    RenderAnchor(SocialAnchor(link))
  }

  /** The phone as a `tel:` link: the target is dialable, the label is the
      phone string as written. */
  function PhoneAnchor(phone: string): (a: Anchor)
    ensures !a.external && a.text == phone
    ensures "tel:" <= a.href && |a.href| <= 4 + |phone|
    ensures forall i :: 4 <= i < |a.href| ==> IsDialChar(a.href[i])
    ensures a.href == "tel:" + DialTarget(phone)
  {
    Anchor("tel:" + DialTarget(phone), false, phone)
  }

  /** The contact block is written when any of its three parts is truthy. */
  predicate HasContact(d: FooterDoc) {
    Truthy(d.address) || Truthy(d.phone) || Truthy(d.email)
  }

  /** Each truthy part is appended on its own, in the order address, phone, email. */
  function ContactHtml(d: FooterDoc): string {
    "<p>"
      + (if Truthy(d.address) then d.address.value + "<br>" else "")
      + (if Truthy(d.phone) then RenderAnchor(PhoneAnchor(d.phone.value)) + "<br>" else "")
      + (if Truthy(d.email) then RenderAnchor(Anchor("mailto:" + d.email.value, false, d.email.value)) else "")
      + "</p>"
  }

  /** Each region is written on its own condition; a region whose data is
      missing keeps its static content. */
  function BindFooter(doc: Option<FooterDoc>, p: Page): (r: Page)
    ensures Frame(p, r, Footprint)
    ensures doc.None? ==> r == p
    ensures doc.Some? && doc.value.tagline.Some? ==>
      Wrote(p, r, FooterTagline, Text(doc.value.tagline.value))
    ensures doc.Some? && doc.value.tagline.None? ==> Untouched(p, r, FooterTagline)
    ensures doc.Some? && doc.value.motto.Some? ==>
      Wrote(p, r, FooterMotto, Text(doc.value.motto.value))
    ensures doc.Some? && doc.value.motto.None? ==> Untouched(p, r, FooterMotto)
    ensures doc.Some? && NonEmpty(doc.value.hours) ==>
      Wrote(p, r, FooterHours, Markup(Join(doc.value.hours.value, HoursLine)))
    ensures doc.Some? && !NonEmpty(doc.value.hours) ==> Untouched(p, r, FooterHours)
    ensures doc.Some? && HasContact(doc.value) ==>
      Wrote(p, r, FooterContact, Markup(ContactHtml(doc.value)))
    ensures doc.Some? && !HasContact(doc.value) ==> Untouched(p, r, FooterContact)
    ensures doc.Some? && NonEmpty(doc.value.socialLinks) ==>
      Wrote(p, r, FooterSocials, Markup(Join(doc.value.socialLinks.value, SocialHtml)))
    ensures doc.Some? && !NonEmpty(doc.value.socialLinks) ==> Untouched(p, r, FooterSocials)
  {
    match doc
    case None => p
    case Some(d) =>
      var r := map k | k in p :: Rebind(d, k, p[k]);
      RebindFrame(d, p, r);
      RebindTexts(d, p, r);
      RebindHours(d, p, r);
      RebindContact(d, p, r);
      RebindSocials(d, p, r);
      r
  }

  /* What the map of rebound regions holds, one region at a time. */

  lemma RebindFrame(d: FooterDoc, p: Page, r: Page)
    requires r == map k | k in p :: Rebind(d, k, p[k])
    ensures Frame(p, r, Footprint)
  {
  }

  lemma RebindTexts(d: FooterDoc, p: Page, r: Page)
    requires r == map k | k in p :: Rebind(d, k, p[k])
    ensures d.tagline.Some? ==> Wrote(p, r, FooterTagline, Text(d.tagline.value))
    ensures d.tagline.None? ==> Untouched(p, r, FooterTagline)
    ensures d.motto.Some? ==> Wrote(p, r, FooterMotto, Text(d.motto.value))
    ensures d.motto.None? ==> Untouched(p, r, FooterMotto)
  {
  }

  lemma RebindHours(d: FooterDoc, p: Page, r: Page)
    requires r == map k | k in p :: Rebind(d, k, p[k])
    ensures NonEmpty(d.hours) ==> Wrote(p, r, FooterHours, Markup(Join(d.hours.value, HoursLine)))
    ensures !NonEmpty(d.hours) ==> Untouched(p, r, FooterHours)
  {
  }

  lemma RebindContact(d: FooterDoc, p: Page, r: Page)
    requires r == map k | k in p :: Rebind(d, k, p[k])
    ensures HasContact(d) ==> Wrote(p, r, FooterContact, Markup(ContactHtml(d)))
    ensures !HasContact(d) ==> Untouched(p, r, FooterContact)
  {
  }

  lemma RebindSocials(d: FooterDoc, p: Page, r: Page)
    requires r == map k | k in p :: Rebind(d, k, p[k])
    ensures NonEmpty(d.socialLinks) ==>
      Wrote(p, r, FooterSocials, Markup(Join(d.socialLinks.value, SocialHtml)))
    ensures !NonEmpty(d.socialLinks) ==> Untouched(p, r, FooterSocials)
  {
  }

  /** The element in region `id` after binding `d`, given the one before. */
  function Rebind(d: FooterDoc, id: RegionId, e: Element): Element {
    match id
    case FooterTagline => WithText(e, d.tagline)
    case FooterMotto => WithText(e, d.motto)
    case FooterHours =>
      if NonEmpty(d.hours) then e.(content := Markup(Join(d.hours.value, HoursLine))) else e
    case FooterContact =>
      if HasContact(d) then e.(content := Markup(ContactHtml(d))) else e
    case FooterSocials =>
      if NonEmpty(d.socialLinks) then e.(content := Markup(Join(d.socialLinks.value, SocialHtml))) else e
    case _ => e
  }

  /** The tagline and the motto are written exactly as `setText` writes
      them. */
  lemma BindFooterUsesSetText(d: FooterDoc, p: Page)
    ensures Agree(BindFooter(Some(d), p), SetText(p, FooterTagline, d.tagline), {FooterTagline})
    ensures Agree(BindFooter(Some(d), p), SetText(p, FooterMotto, d.motto), {FooterMotto})
  {
  }

  /** Binding the same document again changes nothing more. */
  lemma BindFooterIdempotent(doc: Option<FooterDoc>, p: Page)
    ensures BindFooter(doc, BindFooter(doc, p)) == BindFooter(doc, p)
  {
    if doc.Some? {
      var once := BindFooter(doc, p);
      forall k | k in once
        ensures BindFooter(doc, once)[k] == once[k]
      {
        RebindTwice(doc.value, k, p[k]);
      }
    }
  }

  /** Each region's rewrite depends only on the document, so repeating it
      changes nothing. */
  lemma RebindTwice(d: FooterDoc, id: RegionId, e: Element)
    ensures Rebind(d, id, Rebind(d, id, e)) == Rebind(d, id, e)
  {
  }

  /** A phone whose dial target is the example's gets the example's link. */
  lemma PhoneAnchorOfExampleTarget(phone: string)
    requires DialTarget(phone) == "+15551234567"
    ensures PhoneAnchor(phone) == Anchor("tel:+15551234567", false, phone)
  {
    // Proved on its own, so the literal does not enter the rest of the proof.
    assert "tel:" + "+15551234567" == "tel:+15551234567" by {}
  }

  /** The displayed phone keeps its formatting while the link dials only
      the digits and the plus sign. */
  lemma PhoneAnchorExample()
    ensures PhoneAnchor("+1 (555) 123-4567") == Anchor("tel:+15551234567", false, "+1 (555) 123-4567")
  {
    DialTargetExample();
    PhoneAnchorOfExampleTarget("+1 (555) 123-4567");
  }

  /** What binding leaves in this binder's regions depends only on what
      those regions held before (and on which regions the page has). */
  lemma BindFooterLocal(doc: Option<FooterDoc>, p: Page, q: Page)
    requires Agree(p, q, Footprint)
    ensures Agree(BindFooter(doc, p), BindFooter(doc, q), Footprint)
  {
  }

  /** The link dials every digit and every `+` of the phone, as many times
      as they were written and in the order they were written, and nothing
      else. */
  lemma PhoneAnchorDials(phone: string, a: string, b: string)
    requires phone == a + b
    ensures PhoneAnchor(phone).href == "tel:" + DialTarget(phone)
    ensures var dial := PhoneAnchor(phone).href[4..];
      && (forall c :: IsDialChar(c) ==> multiset(dial)[c] == multiset(phone)[c])
      && (forall c :: !IsDialChar(c) ==> c !in dial)
      && dial == DialTarget(a) + DialTarget(b)
  {
    var href := PhoneAnchor(phone).href;
    assert href[4..] == DialTarget(phone);
    DialTargetCounts(phone);
    DialTargetAppend(a, b);
  }
}

=== FILE: gallery.dfy ===
/** `loadGallery`: the photo strip. */
module Gallery {
  import opened Optional
  import opened Markup
  import opened Dom
  import opened Photos

  datatype GalleryDoc = GalleryDoc(photos: Option<seq<Photo>>)

  const Footprint: set<RegionId> := {GalleryStrip}

  function GalleryTag(ph: Photo): string {
    Img(ph, "")
  }

  /** The photos of a present document; none otherwise. */
  function PhotosOf(doc: Option<GalleryDoc>): seq<Photo> {
    if doc.Some? then ListOf(doc.value.photos) else []
  }

  /** Replaces the strip with one image per usable photo, unless that would
      leave it empty. */
  function BindGallery(doc: Option<GalleryDoc>, p: Page): (r: Page)
    ensures Frame(p, r, Footprint)
    ensures Kept(PhotosOf(doc)) == [] ==> r == p
    ensures Kept(PhotosOf(doc)) != [] ==>
      Wrote(p, r, GalleryStrip, Markup(Join(Kept(PhotosOf(doc)), GalleryTag)))
  {
    match doc
    case None => p
    case Some(d) =>
      var r := map k | k in p :: Rebind(d, k, p[k]);
      RebindFrame(d, p, r);
      RebindStrip(d, p, r);
      r
  }

  /** The element in region `id` after binding `d`, given the one before:
      the strip is rebuilt when the list is non-empty and some photo has an
      image. */
  function Rebind(d: GalleryDoc, id: RegionId, e: Element): Element {
    match id
    case GalleryStrip =>
      if NonEmpty(d.photos) && HasImages(d.photos.value)
      then e.(content := Markup(RenderKept(d.photos.value, GalleryTag)))
      else e
    case _ => e
  }

  /* What the map of rebound regions holds, one region at a time. */

  lemma RebindFrame(d: GalleryDoc, p: Page, r: Page)
    requires r == map k | k in p :: Rebind(d, k, p[k])
    ensures Frame(p, r, Footprint)
  {
  }

  lemma RebindStrip(d: GalleryDoc, p: Page, r: Page)
    requires r == map k | k in p :: Rebind(d, k, p[k])
    ensures Kept(ListOf(d.photos)) == [] ==> r == p
    ensures Kept(ListOf(d.photos)) != [] ==>
      Wrote(p, r, GalleryStrip, Markup(Join(Kept(ListOf(d.photos)), GalleryTag)))
  {
    var ps := ListOf(d.photos);
    var grows := NonEmpty(d.photos) && HasImages(d.photos.value);
    assert grows <==> Kept(ps) != [] by {
      HasImagesIff(ps);
    }
    if grows && GalleryStrip in p {
      assert r[GalleryStrip] == p[GalleryStrip].(content := Markup(RenderKept(ps, GalleryTag)));
      RenderKeptIsJoinOfKept(ps, GalleryTag);
    }
  }

  /** Each region's rewrite depends only on the document, so repeating it
      changes nothing. */
  lemma RebindTwice(d: GalleryDoc, id: RegionId, e: Element)
    ensures Rebind(d, id, Rebind(d, id, e)) == Rebind(d, id, e)
  {
  }

  /** Binding the same document again changes nothing more. */
  lemma BindGalleryIdempotent(doc: Option<GalleryDoc>, p: Page)
    ensures BindGallery(doc, BindGallery(doc, p)) == BindGallery(doc, p)
  {
    if doc.Some? {
      var once := BindGallery(doc, p);
      forall k | k in once
        ensures BindGallery(doc, once)[k] == once[k]
      {
        RebindTwice(doc.value, k, p[k]);
      }
    }
  }

  /** What binding leaves in this binder's regions depends only on what
      those regions held before (and on which regions the page has). */
  lemma BindGalleryLocal(doc: Option<GalleryDoc>, p: Page, q: Page)
    requires Agree(p, q, Footprint)
    ensures Agree(BindGallery(doc, p), BindGallery(doc, q), Footprint)
  {
  }
}

=== FILE: instagram.dfy ===
/** `loadInstagram`: the follow line and the photo grid. */
module Instagram {
  import opened Optional
  import opened Markup
  import opened Dom
  import opened Photos

  datatype InstagramDoc = InstagramDoc(
    handle: Option<string>,
    profileUrl: Option<string>,
    photos: Option<seq<Photo>>)

  const Footprint: set<RegionId> := {InstagramHandle, InstagramGrid}

  /** The decorative icon laid over every post; an opaque constant. */
  const IgIcon: string :=
    "<div class=\"ig-icon\"><svg width=\"24\" height=\"24\" viewBox=\"0 0 24 24\" fill=\"none\" stroke=\"currentColor\" stroke-width=\"1.5\"><rect x=\"2\" y=\"2\" width=\"20\" height=\"20\" rx=\"5\"/><circle cx=\"12\" cy=\"12\" r=\"5\"/><circle cx=\"17.5\" cy=\"6.5\" r=\"1.5\" fill=\"currentColor\" stroke=\"none\"/></svg></div>"

  /** One grid post; the alt text defaults to "Instagram post". */
  function PostTag(ph: Photo): string {
    "<div class=\"instagram-post\">" + Img(ph, "Instagram post") + IgIcon + "</div>"
  }

  /** The follow line needs both the handle and the profile url. */
  predicate HasFollowLine(d: InstagramDoc) {
    Truthy(d.handle) && Truthy(d.profileUrl)
  }

  /** `Follow us at @handle`, linking the profile in a new browsing context. */
  function FollowLine(d: InstagramDoc): string
    requires HasFollowLine(d)
  {
    "Follow us at " + RenderAnchor(Anchor(d.profileUrl.value, true, "@" + d.handle.value))
  }

  function PhotosOf(doc: Option<InstagramDoc>): seq<Photo> {
    if doc.Some? then ListOf(doc.value.photos) else []
  }

  /** The follow line is written only with both parts present; the grid
      follows the gallery's rule with its own post markup. */
  function BindInstagram(doc: Option<InstagramDoc>, p: Page): (r: Page)
    ensures Frame(p, r, Footprint)
    ensures doc.None? ==> r == p
    ensures doc.Some? && HasFollowLine(doc.value) ==>
      Wrote(p, r, InstagramHandle, Markup(FollowLine(doc.value)))
    ensures doc.Some? && !HasFollowLine(doc.value) ==> Untouched(p, r, InstagramHandle)
    ensures Kept(PhotosOf(doc)) == [] ==> Untouched(p, r, InstagramGrid)
    ensures Kept(PhotosOf(doc)) != [] ==>
      Wrote(p, r, InstagramGrid, Markup(Join(Kept(PhotosOf(doc)), PostTag)))
  {
    match doc
    case None => p
    case Some(d) =>
      var r := map k | k in p :: Rebind(d, k, p[k]);
      RebindFrame(d, p, r);
      RebindHandle(d, p, r);
      RebindGrid(d, p, r);
      r
  }

  /** The element in region `id` after binding `d`, given the one before:
      the follow line and the grid, each on its own condition. */
  function Rebind(d: InstagramDoc, id: RegionId, e: Element): Element {
    match id
    case InstagramHandle => if HasFollowLine(d) then e.(content := Markup(FollowLine(d))) else e
    case InstagramGrid =>
      if NonEmpty(d.photos) && HasImages(d.photos.value)
      then e.(content := Markup(RenderKept(d.photos.value, PostTag)))
      else e
    case _ => e
  }

  /* What the map of rebound regions holds, one region at a time. */

  lemma RebindFrame(d: InstagramDoc, p: Page, r: Page)
    requires r == map k | k in p :: Rebind(d, k, p[k])
    ensures Frame(p, r, Footprint)
  {
  }

  lemma RebindHandle(d: InstagramDoc, p: Page, r: Page)
    requires r == map k | k in p :: Rebind(d, k, p[k])
    ensures HasFollowLine(d) ==> Wrote(p, r, InstagramHandle, Markup(FollowLine(d)))
    ensures !HasFollowLine(d) ==> Untouched(p, r, InstagramHandle)
  {
  }

  lemma RebindGrid(d: InstagramDoc, p: Page, r: Page)
    requires r == map k | k in p :: Rebind(d, k, p[k])
    ensures Kept(ListOf(d.photos)) == [] ==> Untouched(p, r, InstagramGrid)
    ensures Kept(ListOf(d.photos)) != [] ==>
      Wrote(p, r, InstagramGrid, Markup(Join(Kept(ListOf(d.photos)), PostTag)))
  {
    var ps := ListOf(d.photos);
    var grows := NonEmpty(d.photos) && HasImages(d.photos.value);
    assert grows <==> Kept(ps) != [] by {
      HasImagesIff(ps);
    }
    if grows && InstagramGrid in p {
      assert r[InstagramGrid] == p[InstagramGrid].(content := Markup(RenderKept(ps, PostTag)));
      RenderKeptIsJoinOfKept(ps, PostTag);
    }
  }

  /** Each region's rewrite depends only on the document, so repeating it
      changes nothing. */
  lemma RebindTwice(d: InstagramDoc, id: RegionId, e: Element)
    ensures Rebind(d, id, Rebind(d, id, e)) == Rebind(d, id, e)
  {
  }

  /** Binding the same document again changes nothing more. */
  lemma BindInstagramIdempotent(doc: Option<InstagramDoc>, p: Page)
    ensures BindInstagram(doc, BindInstagram(doc, p)) == BindInstagram(doc, p)
  {
    if doc.Some? {
      var once := BindInstagram(doc, p);
      forall k | k in once
        ensures BindInstagram(doc, once)[k] == once[k]
      {
        RebindTwice(doc.value, k, p[k]);
      }
    }
  }

  /** What binding leaves in this binder's regions depends only on what
      those regions held before (and on which regions the page has). */
  lemma BindInstagramLocal(doc: Option<InstagramDoc>, p: Page, q: Page)
    requires Agree(p, q, Footprint)
    ensures Agree(BindInstagram(doc, p), BindInstagram(doc, q), Footprint)
  {
  }
}

=== FILE: loader.dfy ===
/** The callback that runs once all five documents have settled: the five
    binders in a fixed order, each on its own regions. */
module Loader {
  import opened Optional
  import opened Dom
  import About
  import Gallery
  import Menu
  import Footer
  import Instagram

  /** The five documents; each is `None` when its fetch failed. */
  datatype Documents = Documents(
    about: Option<About.AboutDoc>,
    gallery: Option<Gallery.GalleryDoc>,
    menu: Option<Menu.MenuDoc>,
    footer: Option<Footer.FooterDoc>,
    instagram: Option<Instagram.InstagramDoc>)

  const AllRegions: set<RegionId> :=
    About.Footprint + Gallery.Footprint + Menu.Footprint + Footer.Footprint + Instagram.Footprint

  /** The page once `loadAbout` and `loadGallery` have run. */
  function UpToMenu(docs: Documents, q: Page): Page {
    Gallery.BindGallery(docs.gallery, About.BindAbout(docs.about, q))
  }

  /** ... and then `loadMenu`. */
  function UpToFooter(docs: Documents, q: Page): Page {
    Menu.BindMenu(docs.menu, UpToMenu(docs, q))
  }

  /** ... and then `loadFooter`. */
  function UpToInstagram(docs: Documents, q: Page): Page {
    Footer.BindFooter(docs.footer, UpToFooter(docs, q))
  }

  /** `loadAbout`, `loadGallery`, `loadMenu`, `loadFooter`, `loadInstagram`,
      in that order, on well-shaped documents (none of the binders throws, so
      every one of them runs). Elements no binder looks up never change. */
  function BindAll(docs: Documents, p: Page): (r: Page)
    ensures Frame(p, r, AllRegions)
    ensures docs == Documents(None, None, None, None, None) ==> r == p
  {
    Instagram.BindInstagram(docs.instagram, UpToInstagram(docs, p))
  }

  /* The binders that run after a given one, as a chain of their own. */

  function AfterFooter(docs: Documents, q: Page): Page {
    Instagram.BindInstagram(docs.instagram, q)
  }

  function AfterMenu(docs: Documents, q: Page): Page {
    AfterFooter(docs, Footer.BindFooter(docs.footer, q))
  }

  function AfterGallery(docs: Documents, q: Page): Page {
    AfterMenu(docs, Menu.BindMenu(docs.menu, q))
  }

  function AfterAbout(docs: Documents, q: Page): Page {
    AfterGallery(docs, Gallery.BindGallery(docs.gallery, q))
  }

  /* Each chain leaves alone every region outside its binders' footprints. */

  lemma AfterFooterKeeps(docs: Documents, q: Page, fp: set<RegionId>)
    requires fp !! Instagram.Footprint
    ensures Agree(q, AfterFooter(docs, q), fp)
  {
  }

  lemma AfterMenuKeeps(docs: Documents, q: Page, fp: set<RegionId>)
    requires fp !! Footer.Footprint + Instagram.Footprint
    ensures Agree(q, AfterMenu(docs, q), fp)
  {
    AfterFooterKeeps(docs, Footer.BindFooter(docs.footer, q), fp);
  }

  lemma AfterGalleryKeeps(docs: Documents, q: Page, fp: set<RegionId>)
    requires fp !! Menu.Footprint + Footer.Footprint + Instagram.Footprint
    ensures Agree(q, AfterGallery(docs, q), fp)
  {
    AfterMenuKeeps(docs, Menu.BindMenu(docs.menu, q), fp);
  }

  lemma AfterAboutKeeps(docs: Documents, q: Page, fp: set<RegionId>)
    requires fp !! Gallery.Footprint + Menu.Footprint + Footer.Footprint + Instagram.Footprint
    ensures Agree(q, AfterAbout(docs, q), fp)
  {
    AfterGalleryKeeps(docs, Gallery.BindGallery(docs.gallery, q), fp);
  }

  lemma UpToMenuKeeps(docs: Documents, q: Page, fp: set<RegionId>)
    requires fp !! About.Footprint + Gallery.Footprint
    ensures Agree(q, UpToMenu(docs, q), fp)
  {
  }

  lemma UpToFooterKeeps(docs: Documents, q: Page, fp: set<RegionId>)
    requires fp !! About.Footprint + Gallery.Footprint + Menu.Footprint
    ensures Agree(q, UpToFooter(docs, q), fp)
  {
    UpToMenuKeeps(docs, q, fp);
  }

  lemma UpToInstagramKeeps(docs: Documents, q: Page, fp: set<RegionId>)
    requires fp !! About.Footprint + Gallery.Footprint + Menu.Footprint + Footer.Footprint
    ensures Agree(q, UpToInstagram(docs, q), fp)
  {
    UpToFooterKeeps(docs, q, fp);
  }

  /** The whole load is `loadAbout` followed by the chain after it. */
  lemma BindAllSplitsAfterAbout(docs: Documents, p: Page)
    ensures BindAll(docs, p) == AfterAbout(docs, About.BindAbout(docs.about, p))
  {
  }

  /** No region belongs to two binders. */
  lemma FootprintsDisjoint()
    ensures About.Footprint !! Gallery.Footprint + Menu.Footprint + Footer.Footprint + Instagram.Footprint
    ensures Gallery.Footprint !! About.Footprint
    ensures Gallery.Footprint !! Menu.Footprint + Footer.Footprint + Instagram.Footprint
    ensures Menu.Footprint !! About.Footprint + Gallery.Footprint
    ensures Menu.Footprint !! Footer.Footprint + Instagram.Footprint
    ensures Footer.Footprint !! About.Footprint + Gallery.Footprint + Menu.Footprint
    ensures Footer.Footprint !! Instagram.Footprint
    ensures Instagram.Footprint !! About.Footprint + Gallery.Footprint + Menu.Footprint + Footer.Footprint
  {
  }

  /** Agreement on a set of regions chains through an intermediate page. */
  lemma AgreeTrans(p: Page, q: Page, r: Page, fp: set<RegionId>)
    requires Agree(q, p, fp) && Agree(q, r, fp)
    ensures Agree(p, r, fp)
  {
  }

  /** The regions of `loadAbout` end up as `loadAbout` alone would leave them. */
  lemma AboutPart(docs: Documents, p: Page)
    ensures Agree(BindAll(docs, p), About.BindAbout(docs.about, p), About.Footprint)
  {
    FootprintsDisjoint();
    var q := About.BindAbout(docs.about, p);
    BindAllSplitsAfterAbout(docs, p);
    AfterAboutKeeps(docs, q, About.Footprint);
  }

  /** The regions of `loadGallery` end up as `loadGallery` alone would leave them. */
  lemma GalleryPart(docs: Documents, p: Page)
    ensures Agree(BindAll(docs, p), Gallery.BindGallery(docs.gallery, p), Gallery.Footprint)
  {
    FootprintsDisjoint();
    var before := About.BindAbout(docs.about, p);
    Gallery.BindGalleryLocal(docs.gallery, before, p);
    AfterGalleryKeeps(docs, Gallery.BindGallery(docs.gallery, before), Gallery.Footprint);
  }

  /** The regions of `loadMenu` end up as `loadMenu` alone would leave them. */
  lemma MenuPart(docs: Documents, p: Page)
    ensures Agree(BindAll(docs, p), Menu.BindMenu(docs.menu, p), Menu.Footprint)
  {
    FootprintsDisjoint();
    var before := UpToMenu(docs, p);
    UpToMenuKeeps(docs, p, Menu.Footprint);
    Menu.BindMenuLocal(docs.menu, before, p);
    AfterMenuKeeps(docs, Menu.BindMenu(docs.menu, before), Menu.Footprint);
  }

  /** The regions of `loadFooter` end up as `loadFooter` alone would leave them. */
  lemma FooterPart(docs: Documents, p: Page)
    ensures Agree(BindAll(docs, p), Footer.BindFooter(docs.footer, p), Footer.Footprint)
  {
    FootprintsDisjoint();
    var before := UpToFooter(docs, p);
    UpToFooterKeeps(docs, p, Footer.Footprint);
    Footer.BindFooterLocal(docs.footer, before, p);
    var mid := Footer.BindFooter(docs.footer, before);
    assert BindAll(docs, p) == AfterFooter(docs, mid);
    AfterFooterKeeps(docs, mid, Footer.Footprint);
    AgreeTrans(AfterFooter(docs, mid), mid, Footer.BindFooter(docs.footer, p), Footer.Footprint);
  }

  /** The regions of `loadInstagram` end up as `loadInstagram` alone would leave them. */
  lemma InstagramPart(docs: Documents, p: Page)
    ensures Agree(BindAll(docs, p), Instagram.BindInstagram(docs.instagram, p), Instagram.Footprint)
  {
    FootprintsDisjoint();
    var before := UpToInstagram(docs, p);
    UpToInstagramKeeps(docs, p, Instagram.Footprint);
    Instagram.BindInstagramLocal(docs.instagram, before, p);
  }

  /** The binders share no state: on well-shaped documents each binder's
      regions end up exactly as that binder alone would leave them, whatever
      the others were given. */
  lemma BindAllIndependent(docs: Documents, p: Page)
    ensures var r := BindAll(docs, p);
      && Agree(r, About.BindAbout(docs.about, p), About.Footprint)
      && Agree(r, Gallery.BindGallery(docs.gallery, p), Gallery.Footprint)
      && Agree(r, Menu.BindMenu(docs.menu, p), Menu.Footprint)
      && Agree(r, Footer.BindFooter(docs.footer, p), Footer.Footprint)
      && Agree(r, Instagram.BindInstagram(docs.instagram, p), Instagram.Footprint)
  {
    AboutPart(docs, p);
    GalleryPart(docs, p);
    MenuPart(docs, p);
    FooterPart(docs, p);
    InstagramPart(docs, p);
  }

  /** A second load leaves the regions of `loadAbout` as the first left them. */
  lemma AboutStable(docs: Documents, p: Page)
    ensures Agree(BindAll(docs, BindAll(docs, p)), BindAll(docs, p), About.Footprint)
  {
    var q := BindAll(docs, p);
    var d := docs.about;
    AboutPart(docs, p);
    AboutPart(docs, q);
    About.BindAboutLocal(d, q, About.BindAbout(d, p));
    About.BindAboutIdempotent(d, p);
  }

  /** A second load leaves the regions of `loadGallery` as the first left them. */
  lemma GalleryStable(docs: Documents, p: Page)
    ensures Agree(BindAll(docs, BindAll(docs, p)), BindAll(docs, p), Gallery.Footprint)
  {
    var q := BindAll(docs, p);
    var d := docs.gallery;
    GalleryPart(docs, p);
    GalleryPart(docs, q);
    Gallery.BindGalleryLocal(d, q, Gallery.BindGallery(d, p));
    Gallery.BindGalleryIdempotent(d, p);
  }

  /** A second load leaves the regions of `loadMenu` as the first left them. */
  lemma MenuStable(docs: Documents, p: Page)
    ensures Agree(BindAll(docs, BindAll(docs, p)), BindAll(docs, p), Menu.Footprint)
  {
    var q := BindAll(docs, p);
    var d := docs.menu;
    MenuPart(docs, p);
    MenuPart(docs, q);
    Menu.BindMenuLocal(d, q, Menu.BindMenu(d, p));
    Menu.BindMenuIdempotent(d, p);
  }

  /** A second load leaves the regions of `loadFooter` as the first left them. */
  lemma FooterStable(docs: Documents, p: Page)
    ensures Agree(BindAll(docs, BindAll(docs, p)), BindAll(docs, p), Footer.Footprint)
  {
    var q := BindAll(docs, p);
    var d := docs.footer;
    FooterPart(docs, p);
    FooterPart(docs, q);
    Footer.BindFooterLocal(d, q, Footer.BindFooter(d, p));
    Footer.BindFooterIdempotent(d, p);
  }

  /** A second load leaves the regions of `loadInstagram` as the first left them. */
  lemma InstagramStable(docs: Documents, p: Page)
    ensures Agree(BindAll(docs, BindAll(docs, p)), BindAll(docs, p), Instagram.Footprint)
  {
    var q := BindAll(docs, p);
    var d := docs.instagram;
    InstagramPart(docs, p);
    InstagramPart(docs, q);
    Instagram.BindInstagramLocal(d, q, Instagram.BindInstagram(d, p));
    Instagram.BindInstagramIdempotent(d, p);
  }

  /** Running the whole load a second time with the same documents leaves
      the page as the first run left it. */
  lemma BindAllIdempotent(docs: Documents, p: Page)
    ensures BindAll(docs, BindAll(docs, p)) == BindAll(docs, p)
  {
    var q := BindAll(docs, p);
    var r := BindAll(docs, q);
    AboutStable(docs, p);
    GalleryStable(docs, p);
    MenuStable(docs, p);
    FooterStable(docs, p);
    InstagramStable(docs, p);
    AgreeingEverywhere(r, q);
  }

  /** Two pages that agree on every binder's regions and differ nowhere
      else are the same page. */
  lemma AgreeingEverywhere(r: Page, q: Page)
    requires Frame(q, r, AllRegions)
    requires Agree(r, q, About.Footprint) && Agree(r, q, Gallery.Footprint) && Agree(r, q, Menu.Footprint)
    requires Agree(r, q, Footer.Footprint) && Agree(r, q, Instagram.Footprint)
    ensures r == q
  {
    assert forall k :: k in q ==> r[k] == q[k];
  }
}

=== FILE: markup.dfy ===
/** Markup fragments as plain string concatenation. The binders escape
    nothing, so neither does this model. */
module Markup {

  /** `html += render(x)` for every `x` of `xs`, left to right. */
  function Join<T>(xs: seq<T>, render: T -> string): string {
    if |xs| == 0 then "" else render(xs[0]) + Join(xs[1..], render)
  }

  lemma {:induction false} JoinAppend<T>(a: seq<T>, b: seq<T>, render: T -> string)
    ensures Join(a + b, render) == Join(a, render) + Join(b, render)
  {
    if |a| == 0 {
      assert a + b == b;
    } else {
      assert (a + b)[0] == a[0];
      assert (a + b)[1..] == a[1..] + b;
      JoinAppend(a[1..], b, render);
    }
  }

  /** A link: an external one opens a new browsing context with no
      back-reference to the page; an inert one does not. */
  datatype Anchor = Anchor(href: string, external: bool, text: string)

  function RenderAnchor(a: Anchor): string {
    if a.external then
      "<a href=\"" + a.href + "\" target=\"_blank\" rel=\"noopener\">" + a.text + "</a>"
    else
      "<a href=\"" + a.href + "\">" + a.text + "</a>"
  }
}

=== FILE: menu.dfy ===
/** `loadMenu`: the tab strip and one content panel per category. */
module Menu {
  import opened Optional
  import opened Seqs
  import opened Markup
  import opened Dom

  datatype Item = Item(name: Option<string>, description: Option<string>, price: Option<string>)

  datatype OptionGroup = OptionGroup(heading: Option<string>, options: Option<seq<string>>)

  datatype Category = Category(
    id: Option<string>,
    name: Option<string>,
    items: Option<seq<Item>>,
    optionsGroups: Option<seq<OptionGroup>>)

  datatype MenuDoc = MenuDoc(categories: Option<seq<Category>>)

  const Footprint: set<RegionId> := {MenuTabs, MenuInner}

  /** The class every generated panel carries and the removal step selects on. */
  const PanelClass := "menu-content"

  predicate IsPanel(c: Child) {
    c.Div? && PanelClass in c.classes
  }

  /** A child the rebuild keeps: the header, the tab strip, anything that is
      not a panel. */
  predicate IsStatic(c: Child) {
    !IsPanel(c)
  }

  /** One tab button: activates the panel `target`, shows `text`. */
  datatype Tab = Tab(active: bool, target: string, text: string)

  function RenderTab(t: Tab): string {
    "<button class=\"menu-tab" + (if t.active then " active" else "")
      + "\" onclick=\"switchTab('" + t.target + "')\"> " + t.text + "</button>"
  }

  /** One tab per category, in order; only the first is active. */
  function Tabs(cats: seq<Category>): seq<Tab> {
    seq(|cats|, i requires 0 <= i < |cats| => Tab(i == 0, Show(cats[i].id), Show(cats[i].name)))
  }

  function ItemHtml(item: Item): string {
    "<div class=\"menu-item\">" + "<div>"
      + "<div class=\"menu-item-name\">" + Show(item.name) + "</div>"
      + (if Truthy(item.description) then "<div class=\"menu-item-desc\">" + item.description.value + "</div>" else "")
      + "</div>"
      + "<div class=\"menu-item-price\">" + Show(item.price) + "</div>"
      + "</div>"
  }

  function OptionHtml(opt: string): string {
    "<li>" + opt + "</li>"
  }

  function GroupHtml(g: OptionGroup): string {
    "<div class=\"menu-options-col\">"
      + "<h4 class=\"menu-options-heading\">" + Show(g.heading) + "</h4>"
      + "<ul class=\"menu-options-list\">" + Join(ListOf(g.options), OptionHtml)
      + "</ul></div>"
  }

  /** The items, then the option groups when the category declares any. */
  function PanelHtml(cat: Category): string {
    "<div class=\"menu-columns\">" + Join(ListOf(cat.items), ItemHtml) + "</div>"
      + (if NonEmpty(cat.optionsGroups)
         then "<div class=\"menu-options-grid\">" + Join(cat.optionsGroups.value, GroupHtml) + "</div>"
         else "")
  }

  /** One panel per category, in order, carrying the category's id; all but
      the first start hidden. */
  function Panels(cats: seq<Category>): seq<Child> {
    seq(|cats|, i requires 0 <= i < |cats| => Div({PanelClass}, Show(cats[i].id), i != 0, PanelHtml(cats[i])))
  }

  /** The categories of a present document; none otherwise. */
  function CategoriesOf(doc: Option<MenuDoc>): seq<Category> {
    if doc.Some? then ListOf(doc.value.categories) else []
  }

  /** Binding happens when there is a category and both regions exist. */
  predicate Rebuilds(doc: Option<MenuDoc>, p: Page) {
    |CategoriesOf(doc)| > 0 && MenuTabs in p && MenuInner in p
  }

  /** The container's children after the rebuild: old panels removed, the
      rest kept in order, the new panels appended. */
  function RebuiltChildren(before: Content, cats: seq<Category>): seq<Child> {
    Filter(Kids(before), IsStatic) + Panels(cats)
  }

  /** Rewrites the tab strip and the container when the document has
      categories and both regions exist; changes nothing otherwise. */
  function BindMenu(doc: Option<MenuDoc>, p: Page): (r: Page)
    ensures Frame(p, r, Footprint)
    ensures !Rebuilds(doc, p) ==> r == p
    ensures Rebuilds(doc, p) ==>
      && r[MenuTabs] == p[MenuTabs].(content := Markup(Join(Tabs(CategoriesOf(doc)), RenderTab)))
      && r[MenuInner] == p[MenuInner].(content := Nodes(RebuiltChildren(p[MenuInner].content, CategoriesOf(doc))))
  {
    if doc.None? || !NonEmpty(doc.value.categories) then p
    else if MenuTabs !in p || MenuInner !in p then p
    else map k | k in p :: Rebind(doc.value.categories.value, k, p[k])
  }

  /** The element in region `id` once both regions are known to exist and
      there is a category: the tab strip is rewritten and the container
      rebuilt. */
  function Rebind(cats: seq<Category>, id: RegionId, e: Element): Element {
    match id
    case MenuTabs => e.(content := Markup(Join(Tabs(cats), RenderTab)))
    case MenuInner => e.(content := Nodes(RebuiltChildren(e.content, cats)))
    case _ => e
  }

  /** For n >= 1 categories: n tabs, exactly one active (the first), each
      wired to its category's id and labelled with its name. */
  lemma TabsOneActive(cats: seq<Category>)
    requires |cats| > 0
    ensures |Tabs(cats)| == |cats|
    ensures (set i | 0 <= i < |Tabs(cats)| && Tabs(cats)[i].active) == {0}
    ensures forall i :: 0 <= i < |cats| ==> Tabs(cats)[i].target == Show(cats[i].id) && Tabs(cats)[i].text == Show(cats[i].name)
  {
    var tabs := Tabs(cats);
    assert tabs[0].active;
  }

  /** For n >= 1 categories: n panels, all selected by `.menu-content`, with
      the category ids in order, exactly one visible (the first). */
  lemma PanelsOneVisible(cats: seq<Category>)
    requires |cats| > 0
    ensures |Panels(cats)| == |cats|
    ensures forall i :: 0 <= i < |cats| ==> IsPanel(Panels(cats)[i]) && Panels(cats)[i].id == Show(cats[i].id)
    ensures (set i | 0 <= i < |Panels(cats)| && !Panels(cats)[i].hidden) == {0}
  {
    var panels := Panels(cats);
    assert !panels[0].hidden;
  }

  /** After binding, the container's panels are exactly the new ones, in
      category order, and its other children are the ones it had. */
  lemma {:induction false} BindMenuPanels(doc: Option<MenuDoc>, p: Page)
    requires Rebuilds(doc, p)
    ensures var kids := Kids(BindMenu(doc, p)[MenuInner].content);
      && Filter(kids, IsPanel) == Panels(CategoriesOf(doc))
      && Filter(kids, IsStatic) == Filter(Kids(p[MenuInner].content), IsStatic)
  {
    var cats := CategoriesOf(doc);
    var statics := Filter(Kids(p[MenuInner].content), IsStatic);
    var panels := Panels(cats);
    var kids := Kids(BindMenu(doc, p)[MenuInner].content);
    assert kids == statics + panels;
    assert Filter(kids, IsPanel) == panels by {
      FilterAppend(statics, panels, IsPanel);
      FilterEmptyIff(statics, IsPanel);
      FilterKeepsAll(panels, IsPanel);
    }
    assert Filter(kids, IsStatic) == statics by {
      FilterAppend(statics, panels, IsStatic);
      PanelsNotStatic(cats);
      FilterIdempotent(Kids(p[MenuInner].content), IsStatic);
    }
  }

  /** No generated panel survives the removal step. */
  lemma PanelsNotStatic(cats: seq<Category>)
    ensures Filter(Panels(cats), IsStatic) == []
  {
    FilterEmptyIff(Panels(cats), IsStatic);
  }

  /** Rebuilding a container that was just rebuilt from the same categories
      gives the same children: the panels appended last time are exactly
      the ones removed this time. */
  lemma {:induction false} RebuildTwice(doc: Option<MenuDoc>, p: Page)
    requires Rebuilds(doc, p)
    ensures RebuiltChildren(BindMenu(doc, p)[MenuInner].content, CategoriesOf(doc))
         == RebuiltChildren(p[MenuInner].content, CategoriesOf(doc))
  {
    var cats := CategoriesOf(doc);
    var statics := Filter(Kids(p[MenuInner].content), IsStatic);
    var panels := Panels(cats);
    assert Kids(BindMenu(doc, p)[MenuInner].content) == statics + panels;
    assert Filter(statics + panels, IsStatic) == statics by {
      FilterAppend(statics, panels, IsStatic);
      FilterIdempotent(Kids(p[MenuInner].content), IsStatic);
      PanelsNotStatic(cats);
    }
  }

  /** Rebinding the same document yields the same page: the old panels are
      removed before the new ones are appended, so none are duplicated. */
  lemma {:induction false} BindMenuIdempotent(doc: Option<MenuDoc>, p: Page)
    ensures BindMenu(doc, BindMenu(doc, p)) == BindMenu(doc, p)
  {
    if Rebuilds(doc, p) {
      RebuildTwice(doc, p);
    }
  }

  /** What binding leaves in this binder's regions depends only on what
      those regions held before (and on which regions the page has). */
  lemma BindMenuLocal(doc: Option<MenuDoc>, p: Page, q: Page)
    requires Agree(p, q, Footprint)
    ensures Agree(BindMenu(doc, p), BindMenu(doc, q), Footprint)
  {
  }
}

=== FILE: optional.dfy ===
/** Optional fields of a content document, and the two ways the binders read
    them: JavaScript's `value != null` (presence) and JavaScript truthiness. */
module Optional {

  /** An absent JSON field (`undefined`) is `None`. */
  datatype Option<+T> = None | Some(value: T)

  /** Truthiness of an optional string: present and not the empty string. */
  predicate Truthy(o: Option<string>) {
    o.Some? && |o.value| > 0
  }

  /** The expression `o || fallback`. */
  function Or(o: Option<string>, fallback: string): string {
    if Truthy(o) then o.value else fallback
  }

  /** What string concatenation produces for a possibly absent field. */
  function Show(o: Option<string>): string {
    match o
    case Some(s) => s
    case None => "undefined"
  }

  /** A present, non-empty list. */
  predicate NonEmpty<T>(xs: Option<seq<T>>) {
    xs.Some? && |xs.value| > 0
  }

  /** The list, or the empty list when absent. */
  function ListOf<T>(xs: Option<seq<T>>): seq<T> {
    match xs
    case Some(s) => s
    case None => []
  }
}

=== FILE: photos.dfy ===
/** The photo list shared by the gallery and the Instagram grid, and the
    rule both apply: only photos with a non-empty image URL are rendered. */
module Photos {
  import opened Optional
  import opened Seqs
  import opened Markup

  datatype Photo = Photo(image: Option<string>, alt: Option<string>)

  /** The photo has a truthy image URL; for a string, truthy and non-empty coincide. */
  predicate Usable(ph: Photo) {
    Truthy(ph.image)
  }

  /** Some photo of the list is usable: the guard checked before rendering. */
  predicate HasImages(ps: seq<Photo>) {
    exists i :: 0 <= i < |ps| && Usable(ps[i])
  }

  /** The photos that are rendered, in document order. */
  function Kept(ps: seq<Photo>): seq<Photo> {
    Filter(ps, Usable)
  }

  /** `<img src="…" alt="…">`, with the alt text defaulting to `fallbackAlt`. */
  function Img(ph: Photo, fallbackAlt: string): string {
    "<img src=\"" + Or(ph.image, "") + "\" alt=\"" + Or(ph.alt, fallbackAlt) + "\">"
  }

  /** The rendering loop: each photo in turn contributes its tag if it is
      usable and nothing otherwise. */
  function RenderKept(ps: seq<Photo>, tag: Photo -> string): string {
    if |ps| == 0 then ""
    else (if Usable(ps[0]) then tag(ps[0]) else "") + RenderKept(ps[1..], tag)
  }

  /** The loop renders exactly one tag per usable photo, in document order,
      and skips the others without disturbing the rest. */
  lemma {:induction false} RenderKeptIsJoinOfKept(ps: seq<Photo>, tag: Photo -> string)
    ensures RenderKept(ps, tag) == Join(Kept(ps), tag)
  {
    if |ps| > 0 {
      var rest := Kept(ps[1..]);
      RenderKeptIsJoinOfKept(ps[1..], tag);
      assert RenderKept(ps, tag) == (if Usable(ps[0]) then tag(ps[0]) else "") + Join(rest, tag);
      assert Kept(ps) == (if Usable(ps[0]) then [ps[0]] else []) + rest;
      if Usable(ps[0]) {
        JoinAppend([ps[0]], rest, tag);
      } else {
        assert Kept(ps) == rest;
      }
    }
  }

  /** The `some` guard agrees with the filter: there is something to render
      exactly when some photo is usable. */
  lemma HasImagesIff(ps: seq<Photo>)
    ensures HasImages(ps) <==> Kept(ps) != []
  {
    FilterEmptyIff(ps, Usable);
  }
}

=== FILE: seqs.dfy ===
/** Order-preserving filtering of sequences: the one operation behind the
    photo filter, the phone dial-target normalisation and the removal of old
    menu panels. */
module Seqs {

  /** The elements of `s` that satisfy `keep`, in their original order. */
  function Filter<T(==,!new)>(s: seq<T>, keep: T -> bool): (r: seq<T>)
    ensures |r| <= |s|
    ensures forall i :: 0 <= i < |r| ==> keep(r[i])
  {
    if |s| == 0 then []
    else (if keep(s[0]) then [s[0]] else []) + Filter(s[1..], keep)
  }

  /** Nothing kept is lost: every element `keep` accepts occurs in the
      result as often as in the input, and no other element occurs. */
  lemma {:induction false} FilterCounts<T(!new)>(s: seq<T>, keep: T -> bool)
    ensures forall x :: keep(x) ==> multiset(Filter(s, keep))[x] == multiset(s)[x]
    ensures forall x :: !keep(x) ==> multiset(Filter(s, keep))[x] == 0
  {
    if |s| > 0 {
      FilterCounts(s[1..], keep);
      assert s == [s[0]] + s[1..];
      assert multiset(s) == multiset([s[0]]) + multiset(s[1..]);
    }
  }

  /** Filtering distributes over concatenation, so the relative order of
      the kept elements is the order they had in the input. */
  lemma {:induction false} FilterAppend<T(!new)>(a: seq<T>, b: seq<T>, keep: T -> bool)
    ensures Filter(a + b, keep) == Filter(a, keep) + Filter(b, keep)
  {
    if |a| == 0 {
      assert a + b == b;
    } else {
      assert (a + b)[0] == a[0];
      assert (a + b)[1..] == a[1..] + b;
      FilterAppend(a[1..], b, keep);
    }
  }

  /** A sequence whose every element is kept passes through unchanged. */
  lemma {:induction false} FilterKeepsAll<T(!new)>(s: seq<T>, keep: T -> bool)
    requires forall i :: 0 <= i < |s| ==> keep(s[i])
    ensures Filter(s, keep) == s
  {
    if |s| > 0 {
      FilterKeepsAll(s[1..], keep);
    }
  }

  /** The filter yields nothing exactly when no element is kept. */
  lemma {:induction false} FilterEmptyIff<T(!new)>(s: seq<T>, keep: T -> bool)
    ensures Filter(s, keep) == [] <==> forall i :: 0 <= i < |s| ==> !keep(s[i])
  {
    if |s| > 0 {
      FilterEmptyIff(s[1..], keep);
      if keep(s[0]) {
        assert Filter(s, keep)[0] == s[0];
      } else {
        assert forall i :: 1 <= i < |s| ==> s[i] == s[1..][i - 1];
      }
    }
  }

  /** Filtering twice is filtering once. */
  lemma FilterIdempotent<T(!new)>(s: seq<T>, keep: T -> bool)
    ensures Filter(Filter(s, keep), keep) == Filter(s, keep)
  {
    FilterKeepsAll(Filter(s, keep), keep);
  }
}
